=== FILE: README.md ===
# Solar heat-transfer simulator: controller model

A Dafny model of the front end's controller (`simulator/controller.js`) and of the
two option-list rules of its view (`simulator/view.js`).

- **Stepper** — the interval that `startGraphUpdate` creates. Each firing advances
  elapsed time by 0.2 s and appends its `toFixed(1)` label. It then raises the
  temperature by 1 (the update frequency is hard-coded to 1) and appends it. It
  redraws the chart from the full series, and clears the interval once the
  temperature reaches 85 or `stopGraph` is set.
- **Lifecycle** — `startSimulator` starts the forward slide. Its `transitionend`
  handler shows the selected values and starts the stepper. `goBack` starts the
  reverse slide, raises `stopGraph`, and empties the series and the chart. The
  reverse handler re-runs `init`. The slides are modelled as a layout phase
  (`Configuring`, `ToRunning`, `Running`, `ToConfiguring`). A completion signal
  ends the current slide and runs the listeners registered on the controls panel.
- **Selections** — the month and time handlers ignore their sentinel options. A
  real month rebuilds the date selector: 30 dates for April, June, September and
  November, 28 for February, and 31 for any other string.

Modules, one file each:

- `Wrappers` — `Option`.
- `Decimal` — decimal spelling of dates and time labels, with parsers and round trips.
- `View` — the month and date option lists.
- `Stepper` — one firing, and runs of a lone interval.
- `App` — the shared state, the selection handlers, `displayValues`, and one timer firing.
- `Controller` — the lifecycle as intended, with the invariant every reachable state keeps.
- `AsWritten` — the lifecycle as the code writes it, with the lemmas that exhibit the findings below.

The two controllers differ in four ways:

- In `Controller`, each completion listener runs once and unsubscribes. In `AsWritten`, no listener is ever removed.
- In `Controller`, `goBack` also clears the interval. In `AsWritten`, it only raises the flag.
- In `Controller`, re-running `init` does not bind the input handlers again. In `AsWritten`, each `init` binds them once more.
- In `Controller`, a start click off the configuration panel and a go-back click off the running panel change nothing. In `AsWritten`, every click subscribes its listeners, and go back also raises the flag and empties the series.

Time is kept as whole tenths of a second. `Decimal.Label` is the `toFixed(1)` text
pushed onto `xArray`.

Points where the code behaves differently from what one might expect; both controllers follow the code on the first four:

- `startGraphUpdate` does not empty the series. Only `goBack` does.
- The first temperature sample is 26, not 25, because the increment comes before the push.
- The stop flag is read after the append, not before it.
- `handleDateChange` stores whatever value it gets, including the date sentinel.
- Neither `startSimulator` nor `goBack` checks the phase. `AsWritten` keeps that: a click subscribes its listeners and, for go back, raises the flag and empties the series in any phase. `Controller` ignores a start click off the configuration panel and a go-back click off the running panel (see "## Left out").

## Model

| member | source | states |
|---|---|---|
| Decimal.ParseDigits | simulator/view.js:71-75 | the text of date option `i` reads back as the number `i` |
| Decimal.DigitsInjective | simulator/view.js:71-75 | two date options have the same text exactly when they are the same date |
| Decimal.LabelRoundTrip | simulator/controller.js:141-142 | the `toFixed(1)` label of a time sample reads back as the same number of tenths |
| Decimal.LabelInjective | simulator/controller.js:142 | two time samples get the same label exactly when they are the same instant |
| Decimal.LabelExamples | simulator/controller.js:142 | 0.2 s, 1 s and 12 s print as "0.2", "1.0" and "12.0" |
| View.DaysIn | simulator/view.js:64-69 | 30 exactly for April, June, September and November; 28 exactly for February; 31 exactly for every other string, unrecognised ones included |
| View.DateOptions | simulator/view.js:60-77 | the date list is the sentinel and then DaysIn(month) entries, entry `k` being the decimal spelling of `k` (as `option.text = i` gives it) and reading back as date `k`, ascending |
| View.DateOptionsDistinct | simulator/view.js:62-76 | no two date options are equal, and only the first is the sentinel |
| View.MonthOptions | simulator/view.js:45-56 | the month list is the sentinel and then the twelve month names in calendar order |
| View.MonthOptionsDistinct | simulator/view.js:46-55 | the thirteen month options are pairwise distinct, so the sentinel is not a month |
| View.DaysFollowCommonYear | simulator/view.js:64-69 | walking the month list in order gives the day counts of a common Gregorian year (no leap-year case) |
| View.YearHas365Dates | simulator/view.js:64-69 | the twelve months together offer 365 dates |
| Stepper.Fire | simulator/controller.js:135-157 | one firing appends exactly one sample to each series and keeps the earlier samples. The new time is 0.2 s later, the temperature rises by 1 (the update frequency is 1) and is the appended value, and the firing asks to clear exactly when the temperature reaches 85 or the stop flag is set |
| Stepper.RampShape | simulator/controller.js:130-149 | the series of a run has equal lengths; time strictly increases in steps of 0.2 s from 0.2 s; temperature starts at 26 and never decreases; it stays at or below 85 up to 60 samples and the 60th is 85 |
| Stepper.FireExtendsRamp | simulator/controller.js:138-149 | a firing on a ramp of `n` samples with temperature 25 + n yields the ramp of n + 1 samples, and asks to clear once the temperature reaches 85 |
| Stepper.SoloIsRamp | simulator/controller.js:129-157 | up to the ceiling, after `n` firings the temperature is 25 + n, time is 0.2·n s, the series is the ramp of length n, and the interval runs exactly while n < 60 |
| Stepper.SoloStopsAtCeiling | simulator/controller.js:153-156 | with no stop request the interval clears itself on exactly the 60th firing. From then on it holds 60 samples, every value is at most 85 and the last is 85 |
| Stepper.StopAppendsOnce | simulator/controller.js:149-156 | a running interval that sees the stop flag appends exactly one more sample, clears itself, and nothing is appended afterwards |
| App.Populate | simulator/controller.js:13-18 | re-running `init` repopulates the month list and empties the chart, and changes nothing else |
| App.DisplayValues | simulator/controller.js:120-133 | the completion handler shows the current selections, clears the stop flag, and adds exactly one new running interval at 25 °C and 0 s; the series, phase, listeners, chart, selections and selectors are left as they were |
| App.ClearLatest | simulator/controller.js:155 | `clearInterval(intervalId)` stops the most recently started interval and leaves every older one as it was |
| App.Tick | simulator/controller.js:135-157 | a firing of a running interval leaves exactly the series of `Stepper.Fire` (earlier samples kept, one time and one temperature appended) and redraws the chart from it. When the firing asks to clear, the latest interval is stopped, whichever one fired. The selections, option lists, listeners, flag and bindings are untouched, and a cleared interval's timer changes nothing |
| App.Apply | simulator/controller.js:161-181 | a month or time sentinel changes nothing. A real month is stored and rebuilds the date list, a real time is stored, and a date is stored as given. Nothing else changes |
| App.ApplyIdempotent | simulator/controller.js:161-181 | handling the same selection twice leaves the same state as handling it once, since the selectors are cleared before they are filled |
| Controller.Start | simulator/controller.js:49-70 | start on the configuration panel begins the forward slide and subscribes one completion listener, without starting an interval or touching the series; elsewhere it changes nothing |
| Controller.GoBack | simulator/controller.js:81-95 | go back on the running panel begins the reverse slide, subscribes its listener, raises the stop flag, stops the latest interval, and empties both series and the chart at once; the selections, snapshot, bindings and selectors are untouched |
| Controller.Signal | simulator/controller.js:72-118 | a completion signal ends the slide and leaves no listener subscribed |
| Controller.BootGood | simulator/controller.js:9-22 | the state after page load satisfies the invariant |
| Controller.StepPreservesGood | simulator/controller.js:49-181 | every click, completion signal, timer firing and selection keeps the invariant |
| Controller.RunPreservesGood | simulator/controller.js:49-181 | any sequence of events keeps the invariant |
| Controller.GoodGuarantees | simulator/controller.js:129-157 | under the invariant the series have equal lengths, are a 0.2 s-step ramp bounded by 85 and at most 60 long, and are what the chart shows. At most one interval runs, and only on the running panel |
| Controller.Reachable | simulator/controller.js:129-157 | after page load and any events, both series have equal length and at most 60 samples. Time strictly increases by 0.2 s from 0.2 s, and temperature rises from 26, never decreases and stays at most 85. The chart shows the series, at most one interval runs (only on the running panel), and the input handlers are bound once |
| Controller.ChartLabels | simulator/controller.js:141-142 | the time-axis strings are 0.2 s, 0.4 s, ... as `toFixed(1)` prints them, pairwise distinct |
| Controller.RunningSeries | simulator/controller.js:130-149 | on the running panel the series is the ramp of its length, the live temperature is 25 plus the number of firings, and the interval runs exactly while fewer than 60 samples exist |
| Controller.DuplicateSignalIgnored | simulator/controller.js:72-79 | a completion signal after the slide has ended changes nothing: no second interval and no second reset |
| Controller.SignalIdempotent | simulator/controller.js:111-118 | two completion signals in a row act like one |
| Controller.OnlyForwardEndStarts | simulator/controller.js:69-78 | only the end of the forward slide creates an interval, and exactly one, which is then the only one running |
| Controller.GoBackStopsAppends | simulator/controller.js:81-92 | after go back no interval runs, the series and chart are empty, and no timer firing changes anything |
| Controller.RoundTrip | simulator/controller.js:111-117 | start, slide end, go back, slide end returns to the same state. The selectors are unchanged, no listener is left, and the series and chart are empty. The only differences are one more cleared interval, the snapshot shown and the stop flag |
| Controller.SentinelIgnored | simulator/controller.js:161-181 | picking "---Choose month---" or "---Choose time---" changes nothing in any phase |
| AsWritten.Init | simulator/controller.js:9-22 | every run of `init` binds each input handler once more, repopulates the month list and empties the chart, and changes nothing else |
| AsWritten.Start | simulator/controller.js:49-70 | a start click, in any phase, subscribes one forward listener per binding of the click handler and starts no interval; only from the configuration panel does it begin the slide |
| AsWritten.GoBack | simulator/controller.js:81-95 | a go-back click, in any phase, subscribes one reverse listener per binding, raises the stop flag and empties series and chart, and clears no interval |
| AsWritten.Signal | simulator/controller.js:72-118 | a completion signal leaves every registered listener registered |
| AsWritten.Reachable | simulator/controller.js:142-149 | even as written, after page load and any events the time series and the temperature series have the same length |
| AsWritten.RepeatIsOnce | simulator/controller.js:41-44 | a selection handled once per binding leaves the same state as handling it once |
| AsWritten.GoBackThenOneMoreSample | simulator/controller.js:81-156 | after go back the interval's next firing appends one sample to the emptied series and redraws it, then clears itself, and it never fires again; this holds for the latest interval only, see `AsWritten.OlderIntervalNeverClears` |
| AsWritten.OlderIntervalNeverClears | simulator/controller.js:155 | an interval older than the latest one never clears itself when it fires, whatever its temperature or the stop flag, because `clearInterval` is given the global `intervalId` |
| AsWritten.OlderIntervalPassesCeiling | simulator/controller.js:135-156 | with a second, cleared interval present, the older interval fires past 85 (to 86) and stays alive, and after go back it appends three more samples with the stop flag raised |
| AsWritten.DuplicateSignalStartsSecondInterval | simulator/controller.js:69-75 | start, then two completion signals for the forward slide, leaves two intervals running |
| AsWritten.DoubleClickStartsSecondInterval | simulator/controller.js:49-70 | two start clicks before the forward slide ends leave two intervals running after it ends |
| AsWritten.RoundTripLeavesIntervalRunning | simulator/controller.js:108-117 | after one round trip the configuration panel is back with an interval running and the input handlers bound twice, so the next start click subscribes two more listeners |
| AsWritten.StaleSampleBreaksSeries | simulator/controller.js:87-156 | a sample appended after go back survives into the next series, which then reads 0.4 s, 0.2 s and 27, 26 |

## Findings

| source | as written | input that shows it | evidently intended | confidence | as-written member | corrected member |
|---|---|---|---|---|---|---|
| simulator/controller.js:69-75 | the listener is registered as a fresh `handleAnimationEnd.bind(this)`, but removed with the unbound `controller.handleAnimationEnd`, so it is never removed. Because `intervalId` is global, the older of the two intervals never clears itself: its ceiling and stop checks clear the newer one, so it climbs past 85 and keeps appending after go back (`AsWritten.OlderIntervalPassesCeiling`) | start, then the controls panel reports `transitionend` twice for the forward slide (for example, once per transitioned property) | the handler runs once and unsubscribes, as its comment says | medium, not executed | AsWritten.DuplicateSignalStartsSecondInterval | Controller.DuplicateSignalIgnored |
| simulator/controller.js:49-70 | `startSimulator` does not check the phase, so a second click while the controls panel is still sliding out subscribes a second forward listener | start, start again before the slide ends, slide end | a click during a slide does nothing, and one interval runs | medium, not executed | AsWritten.DoubleClickStartsSecondInterval | Controller.Start |
| simulator/controller.js:108-117 | the forward listener left over from line 69 also runs when the reverse slide ends, and `init` calls `setupEventListeners` again | start, slide end, go back, slide end | the configuration panel comes back with no interval running and every handler bound once | medium, not executed | AsWritten.RoundTripLeavesIntervalRunning | Controller.RoundTrip |
| simulator/controller.js:87-156 | `goBack` does not clear the interval; its next firing appends to the emptied series before reading the flag; `init` empties only the chart. In the trace, the firing that lands behind the stale sample comes from the interval that the leftover forward listener (row for lines 108-117) starts | start, slide end, one firing, go back, one firing, slide end, one firing | no sample after go back, and each run's series starts empty | medium, not executed | AsWritten.StaleSampleBreaksSeries | Controller.GoBackStopsAppends |

## Left out

- The 3-D scene (`renderScene`, `animate`) and `setScreenSplit`: graphics and CSS layout, no logic to model.
- DOM wiring is abstracted: element lookup, CSS class changes, the `resize` listener, and how `transitionend` is raised (bubbling, one event per property). A completion signal is an event that may occur any number of times. The code only ever adds the slide classes (controller.js lines 64-66 and 103-105) and never removes them. Whether a second forward slide, and so a second completion signal, happens after a round trip depends on a stylesheet that is not part of this model. `AsWritten` assumes it does.
- Timing: the 200 ms cadence is left out, and a timer firing is a discrete event that can interleave with any other.
- Floating point is left out: elapsed time is exact tenths, so `elapsedSeconds += 0.2` is taken to print the same as 0.2·n s under `toFixed(1)`.
- The slider handlers (`handleCollectorAreaChange` through `handleTimeStepChange`) only forward a value to the store and the view, so they are left out.
- The time-step slider is not wired to the stepper in the code, so the model keeps the update frequency fixed at 1.
- `simulator/model.js` is not part of this model. The store is the three selections, unset at load, and `graphData` starts with empty series.
- Controller.Start, Controller.GoBack: a click outside the configuration panel (start) or the running panel (go back) changes nothing, although the code has no guard. Assumed: the layout makes the start button unreachable outside the configuration panel and the go-back button unreachable outside the running panel. Without that assumption, `AsWritten.Start` shows what the unguarded click does (a second forward listener). `AsWritten` does not model what re-adding the slide classes mid-slide does to the layout; its phase changes only on the clicks and completion signals above.
- View calls assumed to return: `simulator/view.js` defines none of `populateTimeDropdown`, `initEmptyGraph`, `drawSolarSimulation`, `displaySelectedValues` and `displayGraph`, and does not export `view`. As the text stands, `import { view } from './view.js'` fails when the module is linked, so nothing in `controller.js` runs at all. Even with `view` exported, `init` would throw at `populateTimeDropdown`, and every firing would throw at the chart redraw, before the stop check. The model assumes a view layer where these calls exist and return normally, and does not model the exception path.
- `populateTimeDropdown`, `initEmptyGraph`, `drawSolarSimulation`, `displaySelectedValues` and `displayGraph` are not part of this model beyond their effect on the abstract state. That effect is: the chart is emptied or redrawn from the series, and the shown snapshot is recorded. The time option list is not modelled.
- Console logging and `updateTemperatureDisplay` are left out: they produce text only.

=== FILE: app.dfy ===
/**
 The controller's state and the pieces of `controller.js` that the corrected and
 the as-written lifecycle share: the selection handlers, `displayValues` /
 `startGraphUpdate`, one timer firing, and the `init` steps other than binding.
 The page is abstracted: the layout phase stands for the CSS slide classes, and
 the chart and the selectors are the lists they display.
 */
module App {
  import opened Wrappers
  import opened View
  import opened Stepper

  /** Which panel the layout shows, or which slide is under way. */
  datatype Phase = Configuring | ToRunning | Running | ToConfiguring

  /** A `transitionend` listener on the controls panel. */
  datatype Handler = ForwardEnd | ReverseEnd

  /** The selections the model stores; None until the user picks one. */
  datatype Params = Params(month: Option<string>, date: Option<string>, time: Option<string>)

  const TimeSentinel: string := "---Choose time---"

  datatype State = State(
    phase: Phase,
    /** The module-level `stopGraph` flag. */
    stop: bool,
    /** Every interval `startGraphUpdate` has created, oldest first; `intervalId` names the last. */
    intervals: seq<Interval>,
    /** Completion listeners registered on the controls panel, in registration order. */
    listeners: seq<Handler>,
    /** How many times `setupEventListeners` has run, so how many copies of each input handler are bound. */
    bindings: nat,
    /** `model.graphData`. */
    data: Series,
    /** What the chart currently draws. */
    chart: Series,
    params: Params,
    /** The last snapshot `displaySelectedValues` rendered. */
    shown: Option<Params>,
    monthOptions: seq<string>,
    dateOptions: seq<string>)

  /** A user selection on one of the three drop-downs. */
  datatype Input = MonthPicked(text: string) | DatePicked(value: string) | TimePicked(text: string)

  /** Everything the controller reacts to. */
  datatype Event =
    | StartClicked
    | BackClicked
    | TransitionEnded
    | TimerFired(i: nat)
    | Changed(input: Input)

  /** The page before `init` runs; `page` is the date selector as the markup ships it. */
  function Fresh(page: seq<string>): State {
    State(Configuring, false, [], [], 0, Empty, Empty, Params(None, None, None), None, [], page)
  }

  /** `init` without `setupEventListeners`: repopulate the month selector and empty the chart. */
  function Populate(s: State): (r: State)
    ensures r.monthOptions == MonthOptions() && r.chart == Empty
    ensures r.(monthOptions := s.monthOptions, chart := s.chart) == s
  {
    s.(monthOptions := MonthOptions(), chart := Empty)
  }

  /** The slide a completion signal finishes. */
  function Arrive(p: Phase): (q: Phase)
    ensures q == Running || q == Configuring
    ensures p == Running || p == Configuring ==> q == p
  {
    match p
    case ToRunning => Running
    case ToConfiguring => Configuring
    case _ => p
  }

  /** `displayValues` then `startGraphUpdate`: show the snapshot, clear the stop flag, start one interval. */
  function DisplayValues(s: State): (r: State)
    ensures r.shown == Some(s.params) && !r.stop
    ensures |r.intervals| == |s.intervals| + 1 && r.intervals[..|s.intervals|] == s.intervals
    ensures r.intervals[|s.intervals|] == Launch()
    ensures r.data == s.data
    ensures r.(shown := s.shown, stop := s.stop, intervals := s.intervals) == s
  {
    s.(shown := Some(s.params), stop := false, intervals := s.intervals + [Launch()])
  }

  /** The indices of intervals whose timer still runs. */
  function Alive(s: State): set<nat> {
    set i: nat | i < |s.intervals| && s.intervals[i].alive
  }

  /** `clearInterval(intervalId)`: stops the most recently started interval, whichever fired. */
  function ClearLatest(ivs: seq<Interval>): (r: seq<Interval>)
    ensures |r| == |ivs|
    ensures |r| > 0 ==> !r[|r| - 1].alive
    ensures forall j | 0 <= j < |r| - 1 :: r[j] == ivs[j]
  {
    if |ivs| == 0 then ivs else ivs[|ivs| - 1 := ivs[|ivs| - 1].(alive := false)]
  }

  /**
   The timer of interval `i` fires: one append to both series, the chart redrawn
   from the full series, and `clearInterval(intervalId)` when the ceiling or the
   stop flag is seen. A cleared or unknown interval does not fire.
   */
  function Tick(s: State, i: nat): (r: State)
    ensures i < |s.intervals| && s.intervals[i].alive ==>
              |r.data.xs| == |s.data.xs| + 1 && |r.data.ys| == |s.data.ys| + 1 && r.chart == r.data
    ensures i < |s.intervals| && s.intervals[i].alive ==>
              var f := Fire(s.intervals[i], s.data, s.stop);
              && r.data == f.data
              && r.intervals == (if f.cancel then ClearLatest(s.intervals[i := f.interval]) else s.intervals[i := f.interval])
    ensures !(i < |s.intervals| && s.intervals[i].alive) ==> r == s
    ensures r.phase == s.phase && r.listeners == s.listeners && r.stop == s.stop && r.bindings == s.bindings
    ensures r.params == s.params && r.shown == s.shown
    ensures r.monthOptions == s.monthOptions && r.dateOptions == s.dateOptions
    ensures |r.intervals| == |s.intervals|
  {
    if i < |s.intervals| && s.intervals[i].alive then
      var f := Fire(s.intervals[i], s.data, s.stop);
      var ivs := s.intervals[i := f.interval];
      s.(intervals := if f.cancel then ClearLatest(ivs) else ivs, data := f.data, chart := f.data)
    else s
  }

  /**
   The selection handlers: a month or time equal to its sentinel is ignored; a real
   month is stored and rebuilds the date selector; the date is stored as given.
   */
  function Apply(s: State, input: Input): (r: State)
    ensures input == MonthPicked(MonthSentinel) || input == TimePicked(TimeSentinel) ==> r == s
    ensures input.MonthPicked? && input.text != MonthSentinel ==>
              r == s.(params := s.params.(month := Some(input.text)), dateOptions := DateOptions(input.text))
    ensures input.TimePicked? && input.text != TimeSentinel ==> r == s.(params := s.params.(time := Some(input.text)))
    ensures input.DatePicked? ==> r == s.(params := s.params.(date := Some(input.value)))
  {
    match input
    case MonthPicked(text) =>
      if text != MonthSentinel then s.(params := s.params.(month := Some(text)), dateOptions := DateOptions(text)) else s
    case DatePicked(value) => s.(params := s.params.(date := Some(value)))
    case TimePicked(text) =>
      if text != TimeSentinel then s.(params := s.params.(time := Some(text))) else s
  }

  /** Each handler overwrites what it sets, so handling the same selection twice is handling it once. */
  lemma ApplyIdempotent(s: State, input: Input)
    ensures Apply(Apply(s, input), input) == Apply(s, input)
  {
  }
}

=== FILE: aswritten.dfy ===
/**
 The lifecycle as `controller.js` writes it, to exhibit where it departs
 from the corrected `Controller`:
 - `handleAnimationEnd` / `handleGoingBackAnimationEnd` try to unsubscribe with the
   unbound method, while the registered listener is a fresh `.bind(this)` function,
   so no listener is ever removed;
 - `goBack` only raises `stopGraph`, which the interval reads after its append;
 - `init`, re-run at the end of the reverse slide, calls `setupEventListeners` again.
 */
module AsWritten {
  import opened View
  import opened Stepper
  import opened App

  /** `init`: bind every input handler (once more), populate the month selector, empty the chart. */
  function Init(s: State): (r: State)
    ensures r.bindings == s.bindings + 1
    ensures r.monthOptions == MonthOptions() && r.chart == Empty
    ensures r.(bindings := s.bindings, monthOptions := s.monthOptions, chart := s.chart) == s
  {
    Populate(s).(bindings := s.bindings + 1)
  }

  function Boot(page: seq<string>): State {
    Init(Fresh(page))
  }

  function Copies(h: Handler, k: nat): (r: seq<Handler>)
    ensures |r| == k && forall j | 0 <= j < k :: r[j] == h
  {
    seq(k, _ => h)
  }

  /**
   A click on start runs `startSimulator` once per binding, in whatever phase: each run
   subscribes another forward listener. Only from the configuration panel does the click
   begin a slide; what re-adding the slide classes does to the layout elsewhere is not modelled.
   */
  function Start(s: State): (r: State)
    ensures r.listeners == s.listeners + Copies(ForwardEnd, s.bindings)
    ensures r.phase == (if s.phase == Configuring then ToRunning else s.phase)
    ensures r.intervals == s.intervals && r.data == s.data && r.stop == s.stop
  {
    s.(phase := if s.phase == Configuring then ToRunning else s.phase,
       listeners := s.listeners + Copies(ForwardEnd, s.bindings))
  }

  /**
   A click on go back runs `goBack` once per binding, in whatever phase: subscribe, raise
   the flag, empty series and chart. No interval is cleared.
   */
  function GoBack(s: State): (r: State)
    ensures r.listeners == s.listeners + Copies(ReverseEnd, s.bindings)
    ensures r.phase == (if s.phase == Running then ToConfiguring else s.phase)
    ensures r.intervals == s.intervals && r.stop && r.data == Empty && r.chart == Empty
  {
    s.(phase := if s.phase == Running then ToConfiguring else s.phase,
       listeners := s.listeners + Copies(ReverseEnd, s.bindings), stop := true,
       data := Empty, chart := Empty)
  }

  function Handle(s: State, h: Handler): State {
    match h
    case ForwardEnd => DisplayValues(s)
    case ReverseEnd => Init(s)
  }

  function RunHandlers(s: State, hs: seq<Handler>): (r: State)
    ensures r.phase == s.phase && r.listeners == s.listeners
    decreases |hs|
  {
    if |hs| == 0 then s else RunHandlers(Handle(s, hs[0]), hs[1..])
  }

  lemma OneHandler(s: State, h: Handler)
    ensures RunHandlers(s, [h]) == Handle(s, h)
  {
    assert RunHandlers(s, [h]) == RunHandlers(Handle(s, h), []);
  }

  lemma TwoHandlers(s: State, h: Handler, g: Handler)
    ensures RunHandlers(s, [h, g]) == Handle(Handle(s, h), g)
  {
    assert [h, g][1..] == [g];
    OneHandler(Handle(s, h), g);
  }

  /** A completion signal runs every listener ever registered; the removal inside each is a no-op. */
  function Signal(s: State): (r: State)
    ensures r.listeners == s.listeners
  {
    RunHandlers(s.(phase := Arrive(s.phase)), s.listeners)
  }

  /** A selection runs its handler once per binding. */
  function Repeat(s: State, input: Input, k: nat): State
    decreases k
  {
    if k == 0 then s else Repeat(Apply(s, input), input, k - 1)
  }

  function Step(s: State, e: Event): State {
    match e
    case StartClicked => Start(s)
    case BackClicked => GoBack(s)
    case TransitionEnded => Signal(s)
    case TimerFired(i) => Tick(s, i)
    case Changed(input) => Repeat(s, input, s.bindings)
  }

  function Run(s: State, es: seq<Event>): State
    decreases |es|
  {
    if |es| == 0 then s else Run(Step(s, es[0]), es[1..])
  }

  /** Duplicate selection handlers are harmless: every handler overwrites what it sets. */
  lemma {:induction false} RepeatIsOnce(s: State, input: Input, k: nat)
    requires k >= 1
    ensures Repeat(s, input, k) == Apply(s, input)
    decreases k
  {
    if k > 1 {
      ApplyIdempotent(s, input);
      RepeatFixed(Apply(s, input), input, k - 1);
    }
  }

  lemma {:induction false} RepeatFixed(s: State, input: Input, k: nat)
    requires Apply(s, input) == s
    ensures Repeat(s, input, k) == s
    decreases k
  {
    if k > 0 {
      RepeatFixed(Apply(s, input), input, k - 1);
    }
  }

  /**
   `goBack` empties the series, but the interval is still scheduled: its next firing
   appends one sample to the emptied series, redraws it, and only then clears itself.
   */
  lemma GoBackThenOneMoreSample(s: State)
    requires s.phase == Running && |s.intervals| > 0 && s.intervals[|s.intervals| - 1].alive
    ensures var k := |s.intervals| - 1;
      var r := Tick(GoBack(s), k);
      && GoBack(s).data == Empty
      && |r.data.xs| == 1 && |r.data.ys| == 1 && r.chart == r.data
      && !r.intervals[k].alive
      && Tick(r, k) == r
  {
  }

  /** Finding: a second completion signal for the forward slide starts a second interval beside the first. */
  lemma DuplicateSignalStartsSecondInterval(page: seq<string>)
    ensures Alive(Run(Boot(page), [StartClicked, TransitionEnded, TransitionEnded])) == {0, 1}
  {
    var s0 := Boot(page);
    var s1 := Start(s0);
    assert s1.listeners == [ForwardEnd];
    var s2 := Signal(s1);
    assert s2 == DisplayValues(s1.(phase := Running)) by { OneHandler(s1.(phase := Running), ForwardEnd); }
    var s3 := Signal(s2);
    assert s3 == DisplayValues(s2) by { OneHandler(s2, ForwardEnd); }
    assert s3.intervals == [Launch(), Launch()];
    var es := [StartClicked, TransitionEnded, TransitionEnded];
    assert Run(s0, es) == Run(s1, es[1..]);
    assert Run(s1, es[1..]) == Run(s2, es[2..]);
    assert Run(s2, es[2..]) == Run(s3, []);
    assert Alive(s3) == {0, 1} by {
      assert 0 in Alive(s3) && 1 in Alive(s3);
    }
  }

  /**
   Finding: a second click on start while the controls panel is still sliding out
   subscribes a second forward listener, so the end of the slide starts two intervals.
   */
  lemma DoubleClickStartsSecondInterval(page: seq<string>)
    ensures Alive(Run(Boot(page), [StartClicked, StartClicked, TransitionEnded])) == {0, 1}
  {
    var s0 := Boot(page);
    var s1 := Start(s0);
    var s2 := Start(s1);
    assert s2.listeners == [ForwardEnd, ForwardEnd] && s2.phase == ToRunning;
    var s3 := Signal(s2);
    assert s3 == DisplayValues(DisplayValues(s2.(phase := Running))) by {
      TwoHandlers(s2.(phase := Running), ForwardEnd, ForwardEnd);
    }
    assert s3.intervals == [Launch(), Launch()];
    var es := [StartClicked, StartClicked, TransitionEnded];
    assert Run(s0, es) == Run(s1, es[1..]);
    assert Run(s1, es[1..]) == Run(s2, es[2..]);
    assert Run(s2, es[2..]) == Run(s3, []);
    assert Alive(s3) == {0, 1} by {
      assert 0 in Alive(s3) && 1 in Alive(s3);
    }
  }

  /**
   Finding: after one round trip the configuration panel is back, yet the stale forward
   listener has started an interval that keeps running, and the input handlers are bound
   twice, so the next click on start subscribes two more forward listeners.
   */
  lemma RoundTripLeavesIntervalRunning(page: seq<string>)
    ensures var r := Run(Boot(page), [StartClicked, TransitionEnded, BackClicked, TransitionEnded]);
      && r.phase == Configuring
      && 1 in Alive(r)
      && r.bindings == 2
      && |Start(r).listeners| == |r.listeners| + 2
  {
    var s0 := Boot(page);
    var s1 := Start(s0);
    assert s1.listeners == [ForwardEnd];
    var s2 := Signal(s1);
    assert s2 == DisplayValues(s1.(phase := Running)) by { OneHandler(s1.(phase := Running), ForwardEnd); }
    var s3 := GoBack(s2);
    assert s3.listeners == [ForwardEnd, ReverseEnd];
    var s4 := Signal(s3);
    assert s4 == Init(DisplayValues(s3.(phase := Configuring))) by {
      TwoHandlers(s3.(phase := Configuring), ForwardEnd, ReverseEnd);
    }
    assert s4.intervals[1] == Launch();
    var es := [StartClicked, TransitionEnded, BackClicked, TransitionEnded];
    assert Run(s0, es) == Run(s1, es[1..]);
    assert Run(s1, es[1..]) == Run(s2, es[2..]);
    assert Run(s2, es[2..]) == Run(s3, es[3..]);
    assert Run(s3, es[3..]) == Run(s4, []);
  }

  lemma {:induction false} RunAppend(s: State, a: seq<Event>, b: seq<Event>)
    ensures Run(s, a + b) == Run(Run(s, a), b)
    decreases |a|
  {
    if |a| > 0 {
      assert (a + b)[1..] == a[1..] + b;
      RunAppend(Step(s, a[0]), a[1..], b);
    } else {
      assert a + b == b;
    }
  }

  /** Page load, start, the forward slide ends, one firing. */
  lemma FirstSample(page: seq<string>)
    ensures var r := Run(Boot(page), [StartClicked, TransitionEnded, TimerFired(0)]);
      && r.phase == Running && r.listeners == [ForwardEnd] && !r.stop && r.bindings == 1
      && r.intervals == [Interval(26, 2, true)] && r.data == Series([2], [26])
  {
    var s0 := Boot(page);
    var s1 := Start(s0);
    assert s1.listeners == [ForwardEnd];
    var s2 := Signal(s1);
    assert s2 == DisplayValues(s1.(phase := Running)) by { OneHandler(s1.(phase := Running), ForwardEnd); }
    assert s2.intervals == [Launch()] && s2.data == Empty && !s2.stop;
    var s3 := Tick(s2, 0);
    assert s3.data == Series([2], [26]) && s3.intervals == [Interval(26, 2, true)];
    var es := [StartClicked, TransitionEnded, TimerFired(0)];
    assert Run(s0, es) == Run(s1, es[1..]);
    assert Run(s1, es[1..]) == Run(s2, es[2..]);
    assert Run(s2, es[2..]) == Run(s3, []);
  }

  /** Go back, and the still-scheduled interval fires once more onto the emptied series. */
  lemma SampleAfterGoBack(s: State)
    requires s.phase == Running && s.listeners == [ForwardEnd] && !s.stop && s.bindings == 1
    requires s.intervals == [Interval(26, 2, true)] && s.data == Series([2], [26])
    ensures var r := Run(s, [BackClicked, TimerFired(0)]);
      && r.phase == ToConfiguring && r.listeners == [ForwardEnd, ReverseEnd] && r.stop
      && r.intervals == [Interval(27, 4, false)] && r.data == Series([4], [27])
  {
    var s1 := GoBack(s);
    assert s1.listeners == [ForwardEnd, ReverseEnd];
    var s2 := Tick(s1, 0);
    assert s2.data == Series([4], [27]) && s2.intervals == [Interval(27, 4, false)];
    var es := [BackClicked, TimerFired(0)];
    assert Run(s, es) == Run(s1, es[1..]);
    assert Run(s1, es[1..]) == Run(s2, []);
  }

  /** The reverse slide ends: the stale forward listener starts an interval, `init` empties only the chart. */
  lemma StaleRestart(s: State)
    requires s.phase == ToConfiguring && s.listeners == [ForwardEnd, ReverseEnd] && s.stop
    requires s.intervals == [Interval(27, 4, false)] && s.data == Series([4], [27])
    ensures var r := Run(s, [TransitionEnded, TimerFired(1)]);
      && r.phase == Configuring && r.chart == r.data && r.data == Series([4, 2], [27, 26])
  {
    var s1 := Signal(s);
    assert s1 == Init(DisplayValues(s.(phase := Configuring))) by {
      TwoHandlers(s.(phase := Configuring), ForwardEnd, ReverseEnd);
    }
    assert s1.data == Series([4], [27]) && s1.chart == Empty && !s1.stop;
    assert s1.intervals == [Interval(27, 4, false), Launch()];
    var s2 := Tick(s1, 1);
    assert s2.data == Series([4, 2], [27, 26]);
    var es := [TransitionEnded, TimerFired(1)];
    assert Run(s, es) == Run(s1, es[1..]);
    assert Run(s1, es[1..]) == Run(s2, []);
  }

  /**
   Finding: the sample appended after `goBack` survives the return to the configuration
   panel (`init` empties the chart but not the series), and the next samples are appended
   behind it, so the time series falls from 0.4 s to 0.2 s and the temperature from 27 to 26.
   */
  lemma StaleSampleBreaksSeries(page: seq<string>)
    ensures var r := Run(Boot(page), [StartClicked, TransitionEnded, TimerFired(0), BackClicked,
                                      TimerFired(0), TransitionEnded, TimerFired(1)]);
      && r.phase == Configuring
      && r.data == Series([4, 2], [27, 26])
      && !StrictlyIncreasing(r.data.xs) && !NonDecreasing(r.data.ys)
  {
    var a := [StartClicked, TransitionEnded, TimerFired(0)];
    var b := [BackClicked, TimerFired(0)];
    var c := [TransitionEnded, TimerFired(1)];
    assert a + b + c == [StartClicked, TransitionEnded, TimerFired(0), BackClicked,
                         TimerFired(0), TransitionEnded, TimerFired(1)];
    RunAppend(Boot(page), a + b, c);
    RunAppend(Boot(page), a, b);
    FirstSample(page);
    SampleAfterGoBack(Run(Boot(page), a));
    StaleRestart(Run(Boot(page), a + b));
    var r := Run(Boot(page), a + b + c);
    assert r.data.xs[0] > r.data.xs[1] && r.data.ys[0] > r.data.ys[1];
  }

  /** Both series have the same length: the time and the temperature are appended together. */
  predicate Balanced(s: State) {
    |s.data.xs| == |s.data.ys|
  }

  lemma {:induction false} RunHandlersKeepsData(s: State, hs: seq<Handler>)
    ensures RunHandlers(s, hs).data == s.data
    decreases |hs|
  {
    if |hs| > 0 {
      RunHandlersKeepsData(Handle(s, hs[0]), hs[1..]);
    }
  }

  lemma {:induction false} RepeatKeepsData(s: State, input: Input, k: nat)
    ensures Repeat(s, input, k).data == s.data
    decreases k
  {
    if k > 0 {
      RepeatKeepsData(Apply(s, input), input, k - 1);
    }
  }

  lemma StepBalanced(s: State, e: Event)
    requires Balanced(s)
    ensures Balanced(Step(s, e))
  {
    match e
    case TransitionEnded => RunHandlersKeepsData(s.(phase := Arrive(s.phase)), s.listeners);
    case Changed(input) => RepeatKeepsData(s, input, s.bindings);
    case _ =>
  }

  lemma {:induction false} RunBalanced(s: State, es: seq<Event>)
    requires Balanced(s)
    ensures Balanced(Run(s, es))
    decreases |es|
  {
    if |es| > 0 {
      StepBalanced(s, es[0]);
      RunBalanced(Step(s, es[0]), es[1..]);
    }
  }

  /**
   Even as written, whatever the clicks, signals, timers and selections after page load,
   the time series and the temperature series have the same length.
   */
  lemma Reachable(page: seq<string>, es: seq<Event>)
    ensures |Run(Boot(page), es).data.xs| == |Run(Boot(page), es).data.ys|
  {
    RunBalanced(Boot(page), es);
  }

  /**
   `clearInterval(intervalId)` clears the latest interval, so an older interval that
   fires never clears itself, whatever its temperature or the stop flag.
   */
  lemma OlderIntervalNeverClears(s: State, i: nat)
    requires i < |s.intervals| - 1 && s.intervals[i].alive
    ensures Tick(s, i).intervals[i].alive
    ensures |Tick(s, i).data.xs| == |s.data.xs| + 1
  {
  }

  /**
   Finding: once a second interval exists, the older one runs away. Its ceiling check
   clears the newer one, so it passes 85, and after go back it keeps appending with the
   stop flag raised.
   */
  lemma OlderIntervalPassesCeiling(s: State)
    requires s.intervals == [Interval(84, 118, true), Interval(25, 0, false)] && !s.stop
    ensures var r := Tick(Tick(s, 0), 0);
      && r.intervals[0] == Interval(86, 122, true)
      && r.data.ys[|r.data.ys| - 1] == 86
    ensures var g := GoBack(Tick(Tick(s, 0), 0));
      var r := Tick(Tick(Tick(g, 0), 0), 0);
      && g.stop && r.stop
      && |r.data.xs| == 3
      && r.intervals[0].alive
  {
    var s1 := Tick(s, 0);
    assert s1.intervals == [Interval(85, 120, true), Interval(25, 0, false)];
    var s2 := Tick(s1, 0);
    assert s2.intervals == [Interval(86, 122, true), Interval(25, 0, false)];
    var g := GoBack(s2);
    var g1 := Tick(g, 0);
    assert g1.intervals == [Interval(87, 124, true), Interval(25, 0, false)] && |g1.data.xs| == 1;
    var g2 := Tick(g1, 0);
    assert g2.intervals == [Interval(88, 126, true), Interval(25, 0, false)] && |g2.data.xs| == 2;
  }
}

=== FILE: controller.dfy ===
/**
 The lifecycle as `controller.js` means it to behave: each completion listener
 runs once and unsubscribes, `goBack` clears the running interval as well as
 raising the stop flag, and returning to the configuration panel repopulates the
 selectors without binding the input handlers a second time. Every reachable
 state satisfies `Good`, from which the series and single-stepper guarantees follow.
 */
module Controller {
  import opened Wrappers
  import opened Decimal
  import opened View
  import opened Stepper
  import opened App

  /** `init` at page load: bind the handlers once, populate the month selector, empty the chart. */
  function Boot(page: seq<string>): State {
    Populate(Fresh(page)).(bindings := 1)
  }

  /** `startSimulator`: begin the forward slide and subscribe its completion handler. */
  function Start(s: State): (r: State)
    ensures s.phase == Configuring ==> r == s.(phase := ToRunning, listeners := s.listeners + [ForwardEnd])
    ensures s.phase != Configuring ==> r == s
    ensures r.intervals == s.intervals && r.data == s.data
  {
    if s.phase == Configuring then s.(phase := ToRunning, listeners := s.listeners + [ForwardEnd]) else s
  }

  /** `goBack`: begin the reverse slide, raise the stop flag, clear the interval, empty series and chart. */
  function GoBack(s: State): (r: State)
    ensures s.phase == Running ==>
              r.phase == ToConfiguring && r.stop && r.data == Empty && r.chart == Empty
              && r.listeners == s.listeners + [ReverseEnd]
    ensures s.phase == Running ==> r.intervals == ClearLatest(s.intervals)
    ensures s.phase != Running ==> r == s
    ensures r.params == s.params && r.shown == s.shown && r.bindings == s.bindings
    ensures r.monthOptions == s.monthOptions && r.dateOptions == s.dateOptions
  {
    if s.phase == Running then
      s.(phase := ToConfiguring, listeners := s.listeners + [ReverseEnd], stop := true,
         intervals := ClearLatest(s.intervals), data := Empty, chart := Empty)
    else s
  }

  /** What one completion listener does when it runs. */
  function Handle(s: State, h: Handler): State {
    match h
    case ForwardEnd => DisplayValues(s)
    case ReverseEnd => Populate(s)
  }

  /** Runs listeners in registration order; no listener moves the layout or rebinds inputs. */
  function RunHandlers(s: State, hs: seq<Handler>): (r: State)
    ensures r.phase == s.phase && r.bindings == s.bindings
    decreases |hs|
  {
    if |hs| == 0 then s else RunHandlers(Handle(s, hs[0]), hs[1..])
  }

  /** A completion signal: the slide ends, each subscribed listener runs once and unsubscribes. */
  function Signal(s: State): (r: State)
    ensures r.listeners == []
    ensures r.phase == Arrive(s.phase)
  {
    RunHandlers(s.(phase := Arrive(s.phase)), s.listeners).(listeners := [])
  }

  function Step(s: State, e: Event): State {
    match e
    case StartClicked => Start(s)
    case BackClicked => GoBack(s)
    case TransitionEnded => Signal(s)
    case TimerFired(i) => Tick(s, i)
    case Changed(input) => Apply(s, input)
  }

  function Run(s: State, es: seq<Event>): State
    decreases |es|
  {
    if |es| == 0 then s else Run(Step(s, es[0]), es[1..])
  }

  function Last(s: State): Interval
    requires |s.intervals| > 0
  {
    s.intervals[|s.intervals| - 1]
  }

  /** No interval's timer runs. */
  predicate Idle(s: State) {
    |s.intervals| == 0 || !Last(s).alive
  }

  /** Interval `iv` has fired `n` times over an empty series without a stop request. */
  predicate OnRamp(iv: Interval, data: Series) {
    var n := |data.xs|;
    && n <= Ceiling - StartTemperature
    && data == Ramp(n)
    && iv == Interval(StartTemperature + n, StepTenths * n, n < Ceiling - StartTemperature)
  }

  /** The invariant of the corrected controller. */
  predicate Good(s: State) {
    && s.bindings == 1
    && s.monthOptions == MonthOptions()
    && s.chart == s.data
    && (forall j | 0 <= j < |s.intervals| - 1 :: !s.intervals[j].alive)
    && match s.phase
       case Configuring => s.listeners == [] && s.data == Empty && Idle(s)
       case ToRunning => s.listeners == [ForwardEnd] && s.data == Empty && Idle(s)
       case Running => s.listeners == [] && !s.stop && |s.intervals| > 0 && OnRamp(Last(s), s.data)
       case ToConfiguring => s.listeners == [ReverseEnd] && s.data == Empty && Idle(s) && s.stop
  }

  lemma BootGood(page: seq<string>)
    ensures Good(Boot(page))
  {
    assert Ramp(0) == Empty;
  }

  lemma StartPreservesGood(s: State)
    requires Good(s)
    ensures Good(Start(s))
  {
  }

  lemma GoBackPreservesGood(s: State)
    requires Good(s)
    ensures Good(GoBack(s))
  {
  }

  lemma SignalPreservesGood(s: State)
    requires Good(s)
    ensures Good(Signal(s))
  {
    var a := s.(phase := Arrive(s.phase));
    match s.phase
    case ToRunning =>
      assert RunHandlers(a, s.listeners) == RunHandlers(DisplayValues(a), []);
      assert Ramp(0) == Empty;
    case ToConfiguring =>
      assert RunHandlers(a, s.listeners) == RunHandlers(Populate(a), []);
    case _ =>
  }

  lemma TickPreservesGood(s: State, i: nat)
    requires Good(s)
    ensures Good(Tick(s, i))
  {
    if i < |s.intervals| && s.intervals[i].alive {
      assert s.phase == Running && i == |s.intervals| - 1;
      var n := |s.data.xs|;
      FireExtendsRamp(n);
      var r := Tick(s, i);
      assert r.data == Ramp(n + 1);
      assert |r.data.xs| == n + 1;
    }
  }

  lemma StepPreservesGood(s: State, e: Event)
    requires Good(s)
    ensures Good(Step(s, e))
  {
    match e
    case StartClicked => StartPreservesGood(s);
    case BackClicked => GoBackPreservesGood(s);
    case TransitionEnded => SignalPreservesGood(s);
    case TimerFired(i) => TickPreservesGood(s, i);
    case Changed(input) =>
  }

  lemma {:induction false} RunPreservesGood(s: State, es: seq<Event>)
    requires Good(s)
    ensures Good(Run(s, es))
    decreases |es|
  {
    if |es| > 0 {
      StepPreservesGood(s, es[0]);
      RunPreservesGood(Step(s, es[0]), es[1..]);
    }
  }

  /** What `Good` promises about the series, the chart and the intervals. */
  lemma GoodGuarantees(s: State)
    requires Good(s)
    ensures |s.data.xs| == |s.data.ys| <= Ceiling - StartTemperature
    ensures StepsBy(s.data.xs, StepTenths) && StrictlyIncreasing(s.data.xs)
    ensures |s.data.xs| > 0 ==> s.data.xs[0] == StepTenths && s.data.ys[0] == StartTemperature + 1
    ensures NonDecreasing(s.data.ys) && Bounded(s.data.ys, Ceiling)
    ensures s.chart == s.data
    ensures |Alive(s)| <= 1
    ensures Alive(s) != {} ==> s.phase == Running
    ensures s.phase != Running ==> s.data == Empty
  {
    RampShape(|s.data.xs|);
    if Alive(s) != {} {
      var k := |s.intervals| - 1;
      assert Alive(s) == {k} by {
        forall i | i in Alive(s) ensures i == k {
        }
      }
    }
  }

  /**
   Whatever the user, the timers and the slides do after page load: the two series
   have equal length, time strictly increases by 0.2 s from 0.2 s, temperature rises
   from 26 and never passes 85, at most 60 samples exist, the chart shows exactly the
   series, and at most one interval runs, only while the running panel is shown.
   */
  lemma Reachable(page: seq<string>, es: seq<Event>)
    ensures var s := Run(Boot(page), es);
      && |s.data.xs| == |s.data.ys| <= Ceiling - StartTemperature
      && StepsBy(s.data.xs, StepTenths) && StrictlyIncreasing(s.data.xs)
      && (|s.data.xs| > 0 ==> s.data.xs[0] == StepTenths && s.data.ys[0] == StartTemperature + 1)
      && NonDecreasing(s.data.ys) && Bounded(s.data.ys, Ceiling)
      && s.chart == s.data
      && |Alive(s)| <= 1
      && (Alive(s) != {} ==> s.phase == Running)
      && s.bindings == 1
      && s.monthOptions == MonthOptions()
  {
    BootGood(page);
    RunPreservesGood(Boot(page), es);
    GoodGuarantees(Run(Boot(page), es));
  }

  /**
   The strings on the chart's time axis are 0.2 s, 0.4 s, ... as `toFixed(1)` prints
   them, and no two are alike.
   */
  lemma ChartLabels(s: State)
    requires Good(s)
    ensures forall k | 0 <= k < |s.chart.xs| :: Labels(s.chart.xs)[k] == Label(StepTenths * (k + 1))
    ensures forall j, k | 0 <= j < k < |s.chart.xs| :: Labels(s.chart.xs)[j] != Labels(s.chart.xs)[k]
  {
    var xs := s.chart.xs;
    RampShape(|xs|);
    assert xs == Ramp(|xs|).xs;
    forall j, k | 0 <= j < k < |xs|
      ensures Labels(xs)[j] != Labels(xs)[k]
    {
      LabelInjective(xs[j], xs[k]);
    }
  }

  /** In the running phase the series is exactly the ramp of the live interval: temperature is 25 plus the number of firings. */
  lemma RunningSeries(s: State)
    requires Good(s) && s.phase == Running
    ensures s.data == Ramp(|s.data.xs|)
    ensures Last(s).temp == StartTemperature + |s.data.xs|
    ensures Last(s).alive <==> |s.data.xs| < Ceiling - StartTemperature
  {
  }

  /** A duplicate completion signal, after the slide has ended, changes nothing: no second interval, no second reset. */
  lemma DuplicateSignalIgnored(s: State)
    requires Good(s) && (s.phase == Running || s.phase == Configuring)
    ensures Signal(s) == s
  {
  }

  /** Any number of completion signals for one slide act like one. */
  lemma SignalIdempotent(s: State)
    ensures Signal(Signal(s)) == Signal(s)
  {
  }

  /** Only the end of the forward slide starts an interval, and it starts exactly one. */
  lemma OnlyForwardEndStarts(s: State, e: Event)
    requires Good(s)
    ensures |Step(s, e).intervals| == |s.intervals| + (if e == TransitionEnded && s.phase == ToRunning then 1 else 0)
    ensures e == TransitionEnded && s.phase == ToRunning ==>
              Alive(Step(s, e)) == {|s.intervals|} && Step(s, e).phase == Running
  {
    if e == TransitionEnded {
      var a := s.(phase := Arrive(s.phase));
      match s.phase
      case ToRunning =>
        assert RunHandlers(a, s.listeners) == DisplayValues(a);
        var r := Step(s, e);
        assert Alive(r) == {|s.intervals|} by {
          forall i | i in Alive(r) ensures i == |s.intervals| {
          }
        }
      case ToConfiguring =>
        assert RunHandlers(a, s.listeners) == Populate(a);
      case _ =>
    }
  }

  /** After `goBack` nothing can append: no interval runs, and any timer firing is a no-op. */
  lemma GoBackStopsAppends(s: State, i: nat)
    requires Good(s) && s.phase == Running
    ensures Alive(GoBack(s)) == {}
    ensures GoBack(s).data == Empty && GoBack(s).chart == Empty && GoBack(s).stop
    ensures Tick(GoBack(s), i) == GoBack(s)
  {
    GoBackPreservesGood(s);
    GoodGuarantees(GoBack(s));
  }

  /**
   A full round trip (start, slide ends, go back, slide ends) from the configuration
   panel returns to it with the same selectors, no listener left, an empty series and
   chart; it only records one more (cleared) interval, the snapshot it showed and the stop flag.
   */
  lemma RoundTrip(s: State)
    requires Good(s) && s.phase == Configuring
    ensures Run(s, [StartClicked, TransitionEnded, BackClicked, TransitionEnded])
         == s.(stop := true, intervals := s.intervals + [Launch().(alive := false)], shown := Some(s.params))
  {
    var s1 := Start(s);
    var s2 := Signal(s1);
    assert RunHandlers(s1.(phase := Running), s1.listeners) == DisplayValues(s1.(phase := Running));
    var s3 := GoBack(s2);
    var s4 := Signal(s3);
    assert RunHandlers(s3.(phase := Configuring), s3.listeners) == Populate(s3.(phase := Configuring));
    var es := [StartClicked, TransitionEnded, BackClicked, TransitionEnded];
    assert Run(s, es) == Run(s1, es[1..]);
    assert Run(s1, es[1..]) == Run(s2, es[2..]);
    assert Run(s2, es[2..]) == Run(s3, es[3..]);
    assert Run(s3, es[3..]) == Run(s4, []);
  }

  /** Picking a selector's sentinel changes nothing in any phase. */
  lemma SentinelIgnored(s: State)
    ensures Step(s, Changed(MonthPicked(MonthSentinel))) == s
    ensures Step(s, Changed(TimePicked(TimeSentinel))) == s
  {
  }
}

=== FILE: decimal.dfy ===
/**
 Decimal text for natural numbers: the option text of a date (`option.text = i`)
 and the elapsed-time label `elapsedSeconds.toFixed(1)` pushed onto the time
 series. Each printer comes with a parser and a round-trip lemma, which is what
 makes the printed labels pairwise distinct.
 */
module Decimal {
  import opened Wrappers

  predicate IsDigit(c: char) {
    '0' <= c <= '9'
  }

  function DigitChar(d: nat): (c: char)
    requires d < 10
    ensures IsDigit(c)
    ensures c as int - '0' as int == d
  {
    ['0', '1', '2', '3', '4', '5', '6', '7', '8', '9'][d]
  }

  function DigitValue(c: char): (d: nat)
    requires IsDigit(c)
    ensures d < 10
    ensures DigitChar(d) == c
  {
    c as int - '0' as int
  }

  /** The shortest decimal spelling of `n`, as JavaScript prints a number. */
  function Digits(n: nat): (s: string)
    ensures 0 < |s|
    ensures forall k | 0 <= k < |s| :: IsDigit(s[k])
    ensures |s| > 1 ==> s[0] != '0'
    decreases n
  {
    if n < 10 then [DigitChar(n)] else Digits(n / 10) + [DigitChar(n % 10)]
  }

  /** Reads a non-empty run of decimal digits; anything else is None. */
  function ParseNat(s: string): (r: Option<nat>)
    ensures r.Some? ==> 0 < |s| && forall k | 0 <= k < |s| :: IsDigit(s[k])
    decreases |s|
  {
    if |s| == 0 || !IsDigit(s[|s| - 1]) then None
    else if |s| == 1 then Some(DigitValue(s[0]))
    else match ParseNat(s[..|s| - 1])
      case None => None
      case Some(v) => Some(10 * v + DigitValue(s[|s| - 1]))
  }

  lemma {:induction false} ParseDigits(n: nat)
    ensures ParseNat(Digits(n)) == Some(n)
    decreases n
  {
    if n >= 10 {
      var s := Digits(n);
      assert s[..|s| - 1] == Digits(n / 10);
      ParseDigits(n / 10);
    }
  }

  /** Different numbers are spelled differently. */
  lemma DigitsInjective(m: nat, n: nat)
    ensures Digits(m) == Digits(n) <==> m == n
  {
    ParseDigits(m);
    ParseDigits(n);
  }

  /** `(t / 10).toFixed(1)` for a non-negative count `t` of tenths of a second. */
  function Label(t: nat): (s: string)
    ensures |s| >= 3 && s[|s| - 2] == '.'
  {
    Digits(t / 10) + "." + [DigitChar(t % 10)]
  }

  /** Reads back a label of the form `<digits>.<digit>` as a count of tenths. */
  function ParseLabel(s: string): (r: Option<nat>)
    ensures r.Some? ==> |s| >= 3 && s[|s| - 2] == '.'
  {
    if |s| < 3 || s[|s| - 2] != '.' || !IsDigit(s[|s| - 1]) then None
    else match ParseNat(s[..|s| - 2])
      case None => None
      case Some(w) => Some(10 * w + DigitValue(s[|s| - 1]))
  }

  lemma LabelRoundTrip(t: nat)
    ensures ParseLabel(Label(t)) == Some(t)
  {
    var s := Label(t);
    assert s[..|s| - 2] == Digits(t / 10);
    ParseDigits(t / 10);
  }

  /** Two time samples get the same label only if they are the same instant. */
  lemma LabelInjective(t: nat, u: nat)
    ensures Label(t) == Label(u) <==> t == u
  {
    LabelRoundTrip(t);
    LabelRoundTrip(u);
  }

  /** The first sample, a whole second, and the 60th sample print as JavaScript prints them. */
  lemma LabelExamples()
    ensures Label(2) == "0.2" && Label(10) == "1.0" && Label(120) == "12.0"
  {
    assert Digits(12) == Digits(1) + [DigitChar(2)];
  }
}

=== FILE: stepper.dfy ===
/**
 The periodic task started by `startGraphUpdate`. A timer firing is a discrete
 step: the 200 ms cadence is not modelled, and elapsed time is kept as a whole
 number of tenths of a second instead of the floating-point `elapsedSeconds`.
 */
module Stepper {
  import opened Decimal

  const StartTemperature: int := 25
  /** The stepper cancels itself once the temperature reaches this value. */
  const Ceiling: int := 85
  /** 0.2 s of simulated time per firing. */
  const StepTenths: nat := 2
  /** Temperature rises once per this many time samples; hard-coded to 1 in the source. */
  const UpdateFrequency: nat := 1

  /** The closure state of one interval: its own temperature and elapsed time, and whether the timer still runs. */
  datatype Interval = Interval(temp: int, tenths: nat, alive: bool)

  /**
   The chart data: elapsed-time samples and temperature samples. A time sample is kept
   as tenths of a second; the string the code pushes onto `xArray` is its `Label`.
   */
  datatype Series = Series(xs: seq<nat>, ys: seq<int>)

  /** The `xArray` strings of a time series. */
  function Labels(xs: seq<nat>): (r: seq<string>)
    ensures |r| == |xs|
  {
    seq(|xs|, (k: nat) requires k < |xs| => Label(xs[k]))
  }

  const Empty: Series := Series([], [])

  /** What one firing leaves behind, and whether its closing check asks to clear the interval. */
  datatype Firing = Firing(interval: Interval, data: Series, cancel: bool)

  /** The interval as `startGraphUpdate` creates it. */
  function Launch(): Interval {
    Interval(StartTemperature, 0, true)
  }

  /**
   One timer firing of `iv` over the shared series: advance time and append it,
   raise the temperature when the time series length is a multiple of the update
   frequency, append the temperature, then test the ceiling and the stop flag.
   */
  function Fire(iv: Interval, data: Series, stop: bool): (f: Firing)
    ensures |f.data.xs| == |data.xs| + 1 && f.data.xs[..|data.xs|] == data.xs
    ensures |f.data.ys| == |data.ys| + 1 && f.data.ys[..|data.ys|] == data.ys
    ensures f.data.xs[|data.xs|] == f.interval.tenths == iv.tenths + StepTenths
    ensures f.data.ys[|data.ys|] == f.interval.temp
    ensures f.interval.temp == iv.temp + 1
    ensures f.interval.alive == iv.alive
    ensures f.cancel <==> stop || f.interval.temp >= Ceiling
  {
    var tenths := iv.tenths + StepTenths;
    var xs := data.xs + [tenths];
    var temp := if |xs| % UpdateFrequency == 0 then iv.temp + 1 else iv.temp;
    var ys := data.ys + [temp];
    Firing(Interval(temp, tenths, iv.alive), Series(xs, ys), stop || temp >= Ceiling)
  }

  /** Runs an interval alone for `n` timer periods: it fires while alive and clears itself when asked. */
  function Periods(iv: Interval, data: Series, stop: bool, n: nat): (r: (Interval, Series))
    decreases n
  {
    if n == 0 || !iv.alive then (iv, data)
    else
      var f := Fire(iv, data, stop);
      Periods(f.interval.(alive := !f.cancel), f.data, stop, n - 1)
  }

  /** A fresh interval over an empty series, with no stop request, after `n` periods. */
  function Solo(n: nat): (Interval, Series) {
    Periods(Launch(), Empty, false, n)
  }

  /** The series a solo run holds after `n` firings: times 0.2, 0.4, ... and temperatures 26, 27, ... */
  function Ramp(n: nat): Series {
    Series(seq(n, (k: nat) => StepTenths * (k + 1)), seq(n, (k: nat) => StartTemperature + 1 + k))
  }

  predicate StepsBy(xs: seq<nat>, d: nat) {
    forall k | 0 <= k < |xs| - 1 :: xs[k + 1] == xs[k] + d
  }

  predicate StrictlyIncreasing(xs: seq<nat>) {
    forall j, k | 0 <= j < k < |xs| :: xs[j] < xs[k]
  }

  predicate NonDecreasing(ys: seq<int>) {
    forall j, k | 0 <= j <= k < |ys| :: ys[j] <= ys[k]
  }

  predicate Bounded(ys: seq<int>, hi: int) {
    forall k | 0 <= k < |ys| :: ys[k] <= hi
  }

  /** The shape every solo series has. */
  lemma RampShape(n: nat)
    ensures |Ramp(n).xs| == |Ramp(n).ys| == n
    ensures StepsBy(Ramp(n).xs, StepTenths) && StrictlyIncreasing(Ramp(n).xs)
    ensures n > 0 ==> Ramp(n).xs[0] == StepTenths && Ramp(n).ys[0] == StartTemperature + 1
    ensures NonDecreasing(Ramp(n).ys)
    ensures n <= Ceiling - StartTemperature ==> Bounded(Ramp(n).ys, Ceiling)
    ensures n == Ceiling - StartTemperature ==> Ramp(n).ys[n - 1] == Ceiling
  {
  }

  /** One firing on top of a ramp extends it by exactly one sample. */
  lemma FireExtendsRamp(n: nat)
    ensures Fire(Interval(StartTemperature + n, StepTenths * n, true), Ramp(n), false)
         == Firing(Interval(StartTemperature + n + 1, StepTenths * (n + 1), true), Ramp(n + 1),
                   StartTemperature + n + 1 >= Ceiling)
  {
    var f := Fire(Interval(StartTemperature + n, StepTenths * n, true), Ramp(n), false);
    assert f.data.xs == Ramp(n + 1).xs;
    assert f.data.ys == Ramp(n + 1).ys;
  }

  /** Until the ceiling, `n` firings of a solo run leave temperature 25 + n and the ramp of length n. */
  lemma {:induction false} SoloIsRamp(n: nat)
    requires n <= Ceiling - StartTemperature
    ensures Solo(n) == (Interval(StartTemperature + n, StepTenths * n, n < Ceiling - StartTemperature), Ramp(n))
  {
    if n > 0 {
      SoloIsRamp(n - 1);
      FireExtendsRamp(n - 1);
      PeriodsSplit(Launch(), Empty, false, n - 1);
      var prev := Interval(StartTemperature + n - 1, StepTenths * (n - 1), true);
      var f := Fire(prev, Ramp(n - 1), false);
      assert Solo(n) == Periods(prev, Ramp(n - 1), false, 1);
      assert Solo(n) == Periods(f.interval.(alive := !f.cancel), f.data, false, 0);
    } else {
      assert Ramp(0) == Empty;
    }
  }

  /** Running `n + 1` periods is running `n` and then one more. */
  lemma {:induction false} PeriodsSplit(iv: Interval, data: Series, stop: bool, n: nat)
    ensures Periods(iv, data, stop, n + 1) == Periods(Periods(iv, data, stop, n).0, Periods(iv, data, stop, n).1, stop, 1)
    decreases n
  {
    if n > 0 && iv.alive {
      var f := Fire(iv, data, stop);
      PeriodsSplit(f.interval.(alive := !f.cancel), f.data, stop, n - 1);
    }
  }

  /** Once cleared, an interval never fires again: extra periods change nothing. */
  lemma {:induction false} DeadStaysPut(iv: Interval, data: Series, stop: bool, n: nat)
    requires !iv.alive
    ensures Periods(iv, data, stop, n) == (iv, data)
  {
  }

  /**
   With no stop request the stepper cancels on exactly the 60th firing: it is alive
   before, dead after, and holds 60 samples ending at the ceiling for ever after.
   */
  lemma {:induction false} SoloStopsAtCeiling(n: nat)
    ensures n < Ceiling - StartTemperature ==> Solo(n).0.alive
    ensures n >= Ceiling - StartTemperature ==> Solo(n) == Solo(Ceiling - StartTemperature)
    ensures !Solo(Ceiling - StartTemperature).0.alive
    ensures |Solo(Ceiling - StartTemperature).1.ys| == Ceiling - StartTemperature
    ensures |Solo(n).1.xs| == |Solo(n).1.ys| <= Ceiling - StartTemperature
    ensures NonDecreasing(Solo(n).1.ys) && Bounded(Solo(n).1.ys, Ceiling)
    ensures Solo(Ceiling - StartTemperature).1.ys[Ceiling - StartTemperature - 1] == Ceiling
    decreases n
  {
    var m := Ceiling - StartTemperature;
    SoloIsRamp(m);
    RampShape(m);
    if n <= m {
      SoloIsRamp(n);
      RampShape(n);
    } else {
      SoloStopsAtCeiling(n - 1);
      PeriodsSplit(Launch(), Empty, false, n - 1);
      DeadStaysPut(Solo(m).0, Solo(m).1, false, 1);
    }
  }

  /**
   The stop flag is read only after the append: an alive interval that sees the flag
   appends exactly one more sample and clears itself, and no later period appends anything.
   */
  lemma {:induction false} StopAppendsOnce(iv: Interval, data: Series, n: nat)
    requires iv.alive && n >= 1
    ensures Periods(iv, data, true, n) == (Fire(iv, data, true).interval.(alive := false), Fire(iv, data, true).data)
    ensures |Periods(iv, data, true, n).1.xs| == |data.xs| + 1
  {
    var f := Fire(iv, data, true);
    DeadStaysPut(f.interval.(alive := false), f.data, true, n - 1);
  }
}

=== FILE: view.dfy ===
/**
 The option lists the view builds for the month and date selectors
 (`populateMonthDropdown`, `updateDateOptions`). Both clear the selector and
 then append, so each list is a function of its argument alone.
 */
module View {
  import opened Wrappers
  import opened Decimal

  const MonthSentinel: string := "---Choose month---"
  /** The first date option; the markup pads it with spaces that option text trims. */
  const DateSentinel: string := "---Choose date---"

  const MonthNames: seq<string> := ["January", "February", "March", "April", "May", "June",
    "July", "August", "September", "October", "November", "December"]

  /** The months `updateDateOptions` gives 30 dates. */
  const ThirtyDayMonths: seq<string> := ["April", "June", "September", "November"]

  /** Days of each month of a common (non-leap) Gregorian year, January first. */
  const CommonYearDays: seq<nat> := [31, 28, 31, 30, 31, 30, 31, 31, 30, 31, 30, 31]

  /** The day count `updateDateOptions` uses for a month name; total over all strings. */
  function DaysIn(month: string): (n: nat)
    ensures n == 30 <==> month in ThirtyDayMonths
    ensures n == 28 <==> month == "February"
    ensures n == 31 <==> month !in ThirtyDayMonths && month != "February"
  {
    if month in ThirtyDayMonths then 30
    else if month == "February" then 28
    else 31
  }

  /** The month selector after `populateMonthDropdown`. */
  function MonthOptions(): (r: seq<string>)
    ensures |r| == 13 && r[0] == MonthSentinel
    ensures forall k | 1 <= k < |r| :: r[k] == MonthNames[k - 1]
  {
    [MonthSentinel] + MonthNames
  }

  /** The date selector after `updateDateOptions(month)`: the sentinel, then 1..DaysIn(month). */
  function DateOptions(month: string): (r: seq<string>)
    ensures |r| == DaysIn(month) + 1 && r[0] == DateSentinel
    ensures forall k | 1 <= k < |r| :: r[k] == Digits(k)
    ensures forall k | 1 <= k < |r| :: ParseNat(r[k]) == Some(k)
  {
    ParseDigitsUpTo(DaysIn(month));
    [DateSentinel] + seq(DaysIn(month), (i: nat) => Digits(i + 1))
  }

  /** Every number from 1 to `n` reads back from its spelling. */
  lemma ParseDigitsUpTo(n: nat)
    ensures forall k | 1 <= k <= n :: ParseNat(Digits(k)) == Some(k)
  {
    forall k | 1 <= k <= n
      ensures ParseNat(Digits(k)) == Some(k)
    {
      ParseDigits(k);
    }
  }

  /** The month list is the sentinel followed by twelve distinct months, none of them the sentinel. */
  lemma MonthOptionsDistinct()
    ensures forall j, k | 0 <= j < k < |MonthOptions()| :: MonthOptions()[j] != MonthOptions()[k]
  {
    var r := MonthOptions();
    forall j, k | 0 <= j < k < |r|
      ensures r[j] != r[k]
    {
      // month names differ in one of their first three letters, and the sentinel starts with '-'
      assert r[j][0] != r[k][0] || r[j][1] != r[k][1] || r[j][2] != r[k][2];
    }
  }

  /** Walking the month selector in order yields the day counts of a common year. */
  lemma DaysFollowCommonYear()
    ensures forall k | 1 <= k < |MonthOptions()| :: DaysIn(MonthOptions()[k]) == CommonYearDays[k - 1]
  {
    var r := MonthOptions();
    forall k | 1 <= k < |r|
      ensures DaysIn(r[k]) == CommonYearDays[k - 1]
    {
      assert r[k] == MonthNames[k - 1];
    }
  }

  function Sum(s: seq<nat>): nat {
    if |s| == 0 then 0 else s[0] + Sum(s[1..])
  }

  /** No leap-year case: the months of the selector add up to 365 dates. */
  lemma YearHas365Dates()
    ensures Sum(seq(12, k requires 0 <= k < 12 => DaysIn(MonthNames[k]))) == 365
  {
    DaysFollowCommonYear();
    var d := seq(12, k requires 0 <= k < 12 => DaysIn(MonthNames[k]));
    assert d == CommonYearDays by {
      forall k | 0 <= k < 12 ensures d[k] == CommonYearDays[k] {
        assert MonthOptions()[k + 1] == MonthNames[k];
      }
    }
  }

  /** The date options are pairwise distinct and only the first is the sentinel. */
  lemma DateOptionsDistinct(month: string)
    ensures forall j, k | 0 <= j < k < |DateOptions(month)| :: DateOptions(month)[j] != DateOptions(month)[k]
  {
    var r := DateOptions(month);
    forall j, k | 0 <= j < k < |r|
      ensures r[j] != r[k]
    {
      if j == 0 {
        // the sentinel starts with '-', which no spelled number does
        assert ParseNat(r[k]).Some?;
        assert IsDigit(r[k][0]);
      } else {
        assert ParseNat(r[j]) != ParseNat(r[k]);
      }
    }
  }
}

=== FILE: wrappers.dfy ===
/** Optional values: an unset selection, a string that does not parse. */
module Wrappers {

  datatype Option<+T> = None | Some(value: T)

}
